=== FILE: README.md ===
# object-memory-mapper in Dafny

A model of the in-memory unit-of-work store of object-memory-mapper, with
proofs of what it promises.

The store keeps entities partitioned by entity type (`EntitiesByType`). Each
partition is an `ImmutableMap` from id to entity. Writes are recorded as
`Save` and `Delete` operations in an `OperationSet`. Replaying a set onto a
store applies its operations in order to a copy of that store.

An `EntityManager` holds a pending operation set and is bound to a
persistence target. Every read replays its pending operations over the
target's current store. `flush` hands the pending set to the target and then
clears it.

There are two targets:

- The `DataSource` owns the canonical store. Its `persist` replays the
  incoming set onto that store at once.
- A `Transaction` only accumulates what is persisted to it. Its store is its
  accumulated set replayed over the DataSource's current store. `commit`
  persists the accumulated set to the DataSource.

`beginTransaction` opens a transaction and a manager bound to it, and runs a
callback with that manager. It commits if the callback completes.

## Layout

One module per part of the store. The three classes that share state
(`EntityManager`, `DataSource`, `Transaction`) are modelled as one state
record, `Targets.System`. It holds:

- the DataSource's store;
- the accumulated log of every transaction begun on it;
- every entity manager, with its target and its pending log.

Managers and transactions are named by their index in that record.

| file | module | models |
|---|---|---|
| optional.dfy | Optional | `undefined` / `null` results |
| entity.dfy | Entity | entities: type tag (`entity.constructor`), id, other fields |
| immutable_map.dfy | ImmutableMap | src/helpers/ImmutableMap.ts |
| entities_by_type.dfy | EntitiesByType | src/entities/entities-by-type.ts |
| operations.dfy | Operations | src/operations/save.ts, src/operations/delete.ts |
| operation_set.dfy | OperationSet | src/operations/operation-set.ts |
| targets.dfy | Targets | DataSource and Transaction state, `persist`, `commit`, `allEntities` |
| entity_manager.dfy | EntityManager | src/entity-manager.ts |
| datasource.dfy | DataSource | `createEntityManager`, `beginTransaction` |
| scenarios.dfy | Scenarios | whole runs described by src/datasource.test.ts |

`OperationSet.Replay` is the reference meaning of replay: a left fold of
`ApplyOp`. `OperationSet.LastWrite` is an independent reference read from the
back of the log: the last operation on a key decides it. `ReplayLookup`
proves that the two agree on every key. `ApplyOn` follows the source's loop
(copy, then `forEach`) and is proved equal to `Replay`.

## Behaviour worth knowing

- A `Transaction` always wraps the `DataSource` (src/transaction.ts:8,
  src/datasource.ts:15). A `beginTransaction` called inside another
  callback opens a second transaction over the DataSource. Its commit
  reaches the DataSource at once. Every manager's view is recomputed over
  the new DataSource store (src/entity-manager.ts:30-32,
  src/transaction.ts:18-20), so the commit shows through wherever the
  manager's own pending operations and its transaction's log do not touch
  the same key (`Scenarios.InnerCommitSurvivesOuterFailure`,
  `EntityManager.OtherCommitSeenInTransaction`).
- `commit` (src/transaction.ts:14-16) neither clears the log nor marks the
  transaction finished, so a second commit persists the same log again
  (`Targets.Commit`). With nothing in between, a second commit changes
  nothing (`Targets.CommitTwiceIsCommitOnce`).
- `save` and `delete` (src/operations/operation-set.ts:10-16) record the
  caller's entity as given. It is cloned only when a replayed `Save` stores
  it (src/operations/save.ts:11, src/helpers/ImmutableMap.ts:13-19). Under
  value semantics a clone is the entity itself (see "Left out").

## Model

| member | source | states |
|---|---|---|
| ImmutableMap.Has | src/helpers/ImmutableMap.ts:33-35 | true exactly when the key holds a value, so that removing the key would change the map |
| ImmutableMap.Get | src/helpers/ImmutableMap.ts:21-23 | a missing key gives `None`, never an error; a present key gives its value |
| ImmutableMap.Copy | src/helpers/ImmutableMap.ts:7-11 | the copy has exactly the source's keys and values |
| ImmutableMap.Set | src/helpers/ImmutableMap.ts:13-19 | afterwards the key is present with the new value; every other key keeps its presence and value |
| ImmutableMap.Delete | src/helpers/ImmutableMap.ts:25-27 | afterwards the key is absent; the result is true iff the key was present; other keys are unchanged |
| ImmutableMap.Clear | src/helpers/ImmutableMap.ts:29-31 | no key is present afterwards |
| ImmutableMap.Empty | src/helpers/ImmutableMap.ts:5 | a new map has no key |
| ImmutableMap.SetIdempotent | src/helpers/ImmutableMap.ts:13-19 | setting the same key to the same value twice equals setting it once |
| ImmutableMap.SetOverrides | src/helpers/ImmutableMap.ts:13-19 | a later set on a key replaces an earlier one |
| EntitiesByType.Empty | src/entities/entities-by-type.ts:5-6 | a new store has no partitions and every lookup is `None` |
| EntitiesByType.Get | src/entities/entities-by-type.ts:22-28 | returns the type's partition and adds an empty one when the type has none; no (type, id) lookup changes |
| EntitiesByType.Clear | src/entities/entities-by-type.ts:30-32 | every partition is removed and every lookup is `None` |
| EntitiesByType.Copy | src/entities/entities-by-type.ts:8-20 | the loop-built copy has the same partitions, empty ones included, and the same entry under every (type, id) |
| Operations.ApplySave | src/operations/save.ts:8-12 | (type, id) holds the entity afterwards, overwriting any previous one; every other (type, id) keeps its presence and value; other partitions are untouched |
| Operations.ApplyDelete | src/operations/delete.ts:8-12 | (type, id) is absent afterwards; every other (type, id) is unchanged; only the entity's own partition is touched; an absent key in an existing partition leaves the store unchanged |
| Operations.ApplyOp | src/operations/operation-set.ts:21 | an operation decides its own key, leaves every other key alone, and adds at most its own type's partition |
| Operations.ApplyOpIdempotent | src/operations/save.ts:8-12 | applying the same `Save`, or the same `Delete` (src/operations/delete.ts:8-12), twice gives the same store as applying it once |
| Operations.SaveKeyIncludesType | src/operations/save.ts:9-11 | saves with equal ids under different types do not collide |
| OperationSet.Clear | src/operations/operation-set.ts:26-28 | the cleared log is empty, and replaying it gives back the input store |
| OperationSet.RecordSave | src/operations/operation-set.ts:10-12 | appends one `Save` after the existing operations; replaying the result is replaying the old log and then saving |
| OperationSet.RecordDelete | src/operations/operation-set.ts:14-16 | appends one `Delete` after the existing operations; replaying the result is replaying the old log and then deleting |
| OperationSet.Concat | src/operations/operation-set.ts:30-36 | the first log's operations followed by the second's; replaying the concatenation equals replaying the second over the first's replay |
| OperationSet.ReplayConcat | src/operations/operation-set.ts:18-24 | replaying `a + b` onto a store equals replaying `b` onto the replay of `a` |
| OperationSet.ReplayLookup | src/operations/operation-set.ts:18-24 | after a replay, each (type, id) is decided by the last operation on it, or keeps its base value when no operation touches it |
| OperationSet.ReplayKeys | src/operations/operation-set.ts:18-24 | a replay keeps the base store's partitions and adds one for each type the log mentions |
| OperationSet.LastOpWins | src/operations/operation-set.ts:18-24 | the last operation on a key decides its final presence and value |
| OperationSet.ReplayUntouched | src/operations/operation-set.ts:18-24 | keys the log never mentions keep their base value |
| OperationSet.ReplayIdempotent | src/operations/operation-set.ts:18-24 | replaying a log onto its own replay changes nothing |
| OperationSet.ApplyOn | src/operations/operation-set.ts:18-24 | the copy-then-apply loop computes the left-fold replay, so the last operation on a key decides it; the input store is never changed |
| Targets.NewDataSource | src/datasource.ts:8 | a new DataSource has an empty store, no transactions and no managers |
| Targets.AllEntities | src/transaction.ts:18-20 | the DataSource's store, or for a transaction its log replayed over the DataSource's current store, so root changes show through where the log does not touch |
| Targets.PersistRoot | src/datasource.ts:25-27 | the DataSource's store becomes the log replayed onto it at once; nothing else changes |
| Targets.PersistTxn | src/transaction.ts:10-12 | the log is appended to the transaction's own log; the DataSource and other transactions are untouched; the transaction's view becomes the log replayed over it |
| Targets.Persist | src/persistence-target.interface.ts:4-7 | for either target, its store becomes the persisted log replayed over it |
| Targets.Commit | src/transaction.ts:14-16 | the DataSource's store becomes exactly what the transaction saw; the transaction's log is kept, not cleared |
| Targets.CommitKeepsUntouched | src/transaction.ts:14-20 | root writes made while the transaction was open survive its commit unless its log touches the same (type, id) |
| Targets.CommitAfterPersist | src/transaction.ts:10-16 | persisting to a transaction and then committing equals committing and then persisting to the DataSource |
| Targets.CommitTwiceIsCommitOnce | src/transaction.ts:14-16 | a repeated commit with nothing in between leaves the same DataSource |
| Targets.CommitOfManyPersists | src/transaction.ts:10-16 | committing after several persists replays all their operations, in order, onto the store the transaction saw before them |
| Targets.CommitOfFreshTransaction | src/transaction.ts:6-16 | for a transaction begun empty, committing after several flushes equals one persist of all their operations to the DataSource |
| EntityManager.View | src/entity-manager.ts:30-32 | every lookup in the manager's store is decided by its own last pending operation on that key, and otherwise by the target's current store |
| EntityManager.FindOne | src/entity-manager.ts:20-22 | the entity at (type, id) in that view, or `None` (`null`) when absent |
| EntityManager.Save | src/entity-manager.ts:10-12 | only the manager's pending log changes (one `Save` appended); the manager then finds the entity |
| EntityManager.Visible | src/entity-manager.ts:15 | the guard of `delete`: true exactly when `findOne` on the entity's type and id would return an entity; looking up the partition changes nothing visible |
| EntityManager.Delete | src/entity-manager.ts:14-18 | a `Delete` is recorded iff `findOne` would find the entity now; otherwise the system is unchanged; either way the manager then finds nothing there |
| EntityManager.Flush | src/entity-manager.ts:24-28 | the target's store becomes the pending log replayed over it, the pending log becomes empty, other managers are untouched, a transaction target leaves the DataSource alone, and the manager's own view does not change |
| EntityManager.SaveIsolated | src/entity-manager.ts:30-32 | a manager's unflushed save is invisible to every other manager |
| EntityManager.InvisibleDeleteHasNoEffect | src/entity-manager.ts:14-18 | deleting an entity the manager cannot see leaves no trace, even after flush |
| EntityManager.FlushSeenBySiblings | src/entity-manager.ts:24-32 | another manager on the same target sees a flush at once, underneath its own pending operations |
| EntityManager.FlushInTransactionStaysInside | src/transaction.ts:10-12 | a flush to a transaction is invisible to managers of the DataSource or of other transactions |
| EntityManager.RootFlushSeenInTransaction | src/transaction.ts:18-20 | a flush to the DataSource from outside is at once underneath an open transaction's view, so it shows through wherever this transaction's log and the manager's own pending operations do not touch the same (type, id) |
| EntityManager.OtherCommitSeenInTransaction | src/transaction.ts:14-20 | after another transaction commits, a manager of this transaction sees the committed writes at once, wherever this transaction's log and the manager's own pending operations do not touch the same (type, id) |
| DataSource.CreateEntityManager | src/datasource.ts:10-12 | a new manager bound to the DataSource with an empty pending log, seeing exactly the DataSource's store |
| DataSource.OpenTransaction | src/datasource.ts:15-16 | a new empty transaction over the DataSource and a manager bound to it that sees exactly the DataSource's store |
| DataSource.Step | src/datasource.ts:18 | one save, delete, flush or manager creation inside a callback keeps every target valid, opens no transaction, only adds managers, and keeps each manager's target |
| DataSource.Run | src/datasource.ts:18 | running a callback's actions, nested `beginTransaction` calls included, keeps every target valid, only adds transactions and managers, and keeps each existing manager's target |
| DataSource.Begin | src/datasource.ts:14-23 | throws iff the callback throws; commits exactly once, after the callback completes; on a throw nothing is committed |
| DataSource.TransactionWorkKeepsRoot | src/transaction.ts:10-12 | work done through a transaction's manager, flushes included, never changes the DataSource; it throws iff it contains a throw |
| DataSource.TransactionAtomic | src/datasource.ts:14-23 | a callback that works only through its own manager leaves the DataSource exactly as before when it throws; a completing one gives it the transaction's whole log replayed over its store |
| Scenarios.SaveAndFlushCommits | src/datasource.test.ts:518-535 | a transaction that saves and flushes one entity commits it to the DataSource |
| Scenarios.NestedCommitOutlivesOuterFailure | src/datasource.ts:14-23 | a completed nested transaction's commit survives the enclosing callback throwing afterwards |
| Scenarios.InnerCommitSurvivesOuterFailure | src/datasource.test.ts:767-788 | the inner entity persists and the outer entity does not when the outer callback throws |
| Scenarios.InnerFailureAbortsBoth | src/datasource.test.ts:790-811 | an inner callback that throws leaves the DataSource unchanged and aborts the outer callback too |
| Scenarios.InnerCommitSeenByOuterManager | src/datasource.test.ts:748-765 | while a nested transaction saves and then flushes, the outer transaction's manager still finds only what the DataSource held before; right after the nested commit it finds the entity |
| Scenarios.DeleteVisibleToOthersUntilFlush | src/datasource.test.ts:222-239 | a deleted entity stays visible to another manager until the deleting manager flushes, and is gone for both afterwards |
| Scenarios.DeleteOfUnseenEntityIsDropped | src/datasource.test.ts:470-485 | a delete by a manager that cannot see the entity is dropped, so both managers see it after both flush |

## Left out

- src/helpers/deepClone.ts and src/helpers/deepFreeze.ts rely on JavaScript reflection. Entities are immutable values here, so cloning is the identity and freezing has nothing to forbid. The tests' "equal but not the same object" and `toBeInstanceOf` checks have no meaning under value semantics.
- Copy independence in the source comes from copying; here it holds by construction. No operation changes its input, so a change to a copy can never reach the original.
- Caller aliasing is not modelled. `Save` and `Delete` keep the caller's object until replay, so mutating an entity after `save` leaks into later reads and flushes. The model assumes callers do not mutate saved entities.
- Ids are assumed to be primitives compared by value (the tests use numbers). In the source, `save` keys the partition by the caller's `id` reference (src/operations/save.ts:11) while the stored and returned entity is a deep clone whose object-valued `id` is a new object (src/helpers/ImmutableMap.ts:14, 22). With an object id, an entity returned by `findOne` therefore fails the `has(entity.id)` guard of `delete` (src/entity-manager.ts:15), so the delete is dropped, and `save` of it adds a second entry. The model's `Id` is an abstract value, so it always deletes or overwrites in that case.
- src/entities/entity.ts is not part of this model. An entity is an abstract type tag (its constructor), an abstract id and abstract other fields.
- The async and Promise machinery of `beginTransaction` is not modelled. The callback is a list of actions ending normally or with `Throw`. The value it returns is passed through unchanged and is not modelled. An exception caught inside an enclosing callback is not modelled either: a `Throw` always propagates to the outermost `beginTransaction`. As a consequence `Run` and `Begin` express only nested transaction lifetimes, where the transaction opened last commits first; two un-nested `beginTransaction` calls whose callbacks interleave across `await`s, and so may commit in either order, are covered only by the state-level members (`Targets.Commit`, the `EntityManager` operations), which apply in any order.
- An action naming a manager index that does not exist does nothing. In the source a manager is an object reference and cannot dangle.
- The `Symbol.iterator` methods are not modelled separately. Iteration is iteration over the Dafny map's keys, as in `EntitiesByType.Copy`.
- src/persistence-target.interface.ts has no behaviour of its own. It is modelled as the `Target` datatype (`Root` or `Txn(i)`) and the dispatch in `Targets.Persist`.
- release.config.cjs is release tooling.
- Transactions over transactions are not modelled, because `Transaction` only ever wraps a `DataSource` (src/transaction.ts:8).

=== FILE: datasource.dfy ===
/** `DataSource`: creating entity managers and running a callback inside a
    transaction. The callback is given as the list of actions it performs
    on the system, with `Throw` for an exception it raises; the value it
    returns is passed through by `beginTransaction` untouched and is not
    modelled. Managers are named by their index: the manager handed to a
    callback gets the next free index. */
module DataSource {

  import opened Entity
  import opened OperationSet
  import opened Targets
  import EntityManager

  /** `createEntityManager()`: a new manager bound to the DataSource, with an
      empty pending log; it sees exactly the DataSource's store. */
  function CreateEntityManager(sys: System): (r: (System, nat))
    requires Valid(sys)
    ensures EntityManager.IsManager(r.0, r.1)
    ensures r.1 == |sys.managers| && r.0.managers == sys.managers + [Manager(Root, [])]
    ensures r.0.root == sys.root && r.0.transactions == sys.transactions
    ensures EntityManager.View(r.0, r.1) == sys.root
  {
    (sys.(managers := sys.managers + [Manager(Root, OperationSet.Clear())]), |sys.managers|)
  }

  /** The first half of `beginTransaction`: a new transaction over the
      DataSource with an empty log, and a new manager bound to it. Returns
      the system, the transaction's index and the manager's index. The new
      manager sees exactly the DataSource's store. */
  function OpenTransaction(sys: System): (r: (System, nat, nat))
    requires Valid(sys)
    ensures EntityManager.IsManager(r.0, r.2)
    ensures r.1 == |sys.transactions| && r.0.transactions == sys.transactions + [[]]
    ensures r.2 == |sys.managers| && r.0.managers == sys.managers + [Manager(Txn(r.1), [])]
    ensures r.0.root == sys.root
    ensures EntityManager.View(r.0, r.2) == sys.root
  {
    var i := |sys.transactions|;
    var sys' := System(sys.root, sys.transactions + [OperationSet.Clear()],
                       sys.managers + [Manager(Txn(i), OperationSet.Clear())]);
    assert Valid(sys') by {
      forall k | 0 <= k < |sys'.managers|
        ensures ValidTarget(sys', sys'.managers[k].target)
      {
        if k < |sys.managers| {
          assert ValidTarget(sys, sys.managers[k].target);
        }
      }
    }
    (sys', i, |sys.managers|)
  }

  /** One thing a callback does. */
  datatype Action =
    | SaveWith(manager: nat, entity: Entity)
    | DeleteWith(manager: nat, entity: Entity)
    | FlushWith(manager: nat)
    | CreateManager
    | BeginTransaction(callback: seq<Action>)
    | Throw

  /** How a callback ended, and the system it left behind. */
  datatype Outcome = Completed(sys: System) | Threw(sys: System)

  /** A single non-transactional action. A manager index that names no
      manager does nothing: in the source a manager is an object reference
      and cannot dangle. */
  function Step(sys: System, a: Action): (r: System)
    requires Valid(sys)
    requires !a.BeginTransaction? && !a.Throw?
    ensures Valid(r)
    ensures |r.transactions| == |sys.transactions| && |r.managers| >= |sys.managers|
    ensures forall k :: 0 <= k < |sys.managers| ==> r.managers[k].target == sys.managers[k].target
  {
    match a
    case SaveWith(m, e) => if m < |sys.managers| then EntityManager.Save(sys, m, e) else sys
    case DeleteWith(m, e) => if m < |sys.managers| then EntityManager.Delete(sys, m, e) else sys
    case FlushWith(m) => if m < |sys.managers| then EntityManager.Flush(sys, m) else sys
    case CreateManager => CreateEntityManager(sys).0
  }

  /** Run a callback's actions in order. An exception stops the callback and
      propagates; a nested `beginTransaction` that throws propagates too. */
  function Run(sys: System, actions: seq<Action>): (r: Outcome)
    requires Valid(sys)
    ensures Valid(r.sys)
    ensures |r.sys.transactions| >= |sys.transactions| && |r.sys.managers| >= |sys.managers|
    ensures forall k :: 0 <= k < |sys.managers| ==> r.sys.managers[k].target == sys.managers[k].target
    decreases actions, 0
  {
    if |actions| == 0 then Completed(sys)
    else match actions[0]
      case Throw => Threw(sys)
      case BeginTransaction(callback) =>
        (match Begin(sys, callback)
         case Completed(sys') => Run(sys', actions[1..])
         case Threw(sys') => Threw(sys'))
      case _ => Run(Step(sys, actions[0]), actions[1..])
  }

  /** `beginTransaction(callback)`: open a transaction and its manager, run
      the callback, and commit exactly once if and only if the callback
      completed. When it threw, the exception propagates and nothing is
      committed. */
  function Begin(sys: System, callback: seq<Action>): (r: Outcome)
    requires Valid(sys)
    ensures Valid(r.sys)
    ensures |r.sys.transactions| > |sys.transactions| && |r.sys.managers| > |sys.managers|
    ensures forall k :: 0 <= k < |sys.managers| ==> r.sys.managers[k].target == sys.managers[k].target
    ensures r.Threw? <==> Run(OpenTransaction(sys).0, callback).Threw?
    ensures r.Completed? ==>
      r.sys.root == AllEntities(Run(OpenTransaction(sys).0, callback).sys, Txn(|sys.transactions|))
    ensures r.Threw? ==> r.sys == Run(OpenTransaction(sys).0, callback).sys
    decreases callback, 1
  {
    var (started, i, _) := OpenTransaction(sys);
    match Run(started, callback)
    case Completed(sys') => Completed(Commit(sys', i))
    case Threw(sys') => Threw(sys')
  }

  /** A nested transaction that completes hands its resulting system on to
      the rest of the enclosing callback. */
  lemma RunAfterNestedCommit(sys: System, callback: seq<Action>, rest: seq<Action>)
    requires Valid(sys) && Begin(sys, callback).Completed?
    ensures Run(sys, [BeginTransaction(callback)] + rest) == Run(Begin(sys, callback).sys, rest)
  {
    var actions := [BeginTransaction(callback)] + rest;
    assert actions[0] == BeginTransaction(callback) && actions[1..] == rest;
  }

  /** The callback only works through manager `m` (and may throw). */
  predicate OnlyThrough(actions: seq<Action>, m: nat) {
    forall k :: 0 <= k < |actions| ==>
      match actions[k]
      case SaveWith(n, _) => n == m
      case DeleteWith(n, _) => n == m
      case FlushWith(n) => n == m
      case Throw => true
      case _ => false
  }

  /** Whatever a callback does through a manager bound to a transaction, the
      DataSource's store stays as it was: flushes inside a transaction only
      reach its log. Such a callback throws exactly when it contains a
      `Throw`. */
  lemma {:induction false} TransactionWorkKeepsRoot(sys: System, m: nat, actions: seq<Action>)
    requires EntityManager.IsManager(sys, m) && sys.managers[m].target.Txn?
    requires OnlyThrough(actions, m)
    ensures Run(sys, actions).sys.root == sys.root
    ensures Run(sys, actions).Threw? <==> exists k :: 0 <= k < |actions| && actions[k].Throw?
    decreases |actions|
  {
    if |actions| > 0 && !actions[0].Throw? {
      var sys' := Step(sys, actions[0]);
      assert sys'.root == sys.root && sys'.managers[m].target == sys.managers[m].target;
      assert OnlyThrough(actions[1..], m) by {
        forall k | 0 <= k < |actions[1..]|
          ensures actions[1..][k] == actions[k + 1]
        {
        }
      }
      TransactionWorkKeepsRoot(sys', m, actions[1..]);
      assert (exists k :: 0 <= k < |actions| && actions[k].Throw?)
        <==> (exists k :: 0 <= k < |actions[1..]| && actions[1..][k].Throw?) by {
        if k :| 0 <= k < |actions| && actions[k].Throw? {
          assert actions[1..][k - 1] == actions[k];
        }
      }
    }
  }

  /** Atomicity of a transaction whose callback works through the manager it
      is given: when the callback throws the DataSource is exactly as before,
      however many flushes happened inside; when it completes the DataSource
      receives the transaction's whole log, replayed over its store. */
  lemma TransactionAtomic(sys: System, callback: seq<Action>)
    requires Valid(sys)
    requires OnlyThrough(callback, |sys.managers|)
    ensures Begin(sys, callback).Threw? ==> Begin(sys, callback).sys.root == sys.root
    ensures Begin(sys, callback).Completed? ==>
      var r := Begin(sys, callback).sys;
      r.root == Replay(r.transactions[|sys.transactions|], sys.root)
  {
    var (started, i, m) := OpenTransaction(sys);
    TransactionWorkKeepsRoot(started, m, callback);
  }

}

=== FILE: entities_by_type.dfy ===
/** `EntitiesByType`: the store, one `ImmutableMap` partition per entity type.
    A partition is created lazily the first time its type is asked for, so a
    store can hold empty partitions; lookups cannot tell those apart from
    missing ones. */
module EntitiesByType {

  import opened Optional
  import opened Entity
  import ImmutableMap

  type Partition = map<Id, Entity>
  type Store = map<Tag, Partition>

  /** The entity stored under (type, id), if any: `get(t).get(id)` without the
      lazy partition creation. */
  function Lookup(s: Store, t: Tag, id: Id): Option<Entity> {
    if t in s then ImmutableMap.Get(s[t], id) else None
  }

  /** Two stores that answer every lookup alike. */
  ghost predicate SameContents(a: Store, b: Store) {
    forall t, id :: Lookup(a, t, id) == Lookup(b, t, id)
  }

  /** `new EntitiesByType()`: no partitions at all. */
  function Empty(): (r: Store)
    ensures r.Keys == {}
    ensures forall t, id :: Lookup(r, t, id) == None
  {
    map[]
  }

  /** `get(entityType)`: the partition for the type, inserting an empty one
      first when the type has none. Returns the updated store and the
      partition. No (type, id) lookup changes. */
  function Get(s: Store, t: Tag): (r: (Store, Partition))
    ensures t in r.0 && r.0[t] == r.1
    ensures r.0.Keys == s.Keys + {t}
    ensures t in s ==> r.0 == s
    ensures t !in s ==> r.1 == map[]
    ensures forall t', id :: Lookup(r.0, t', id) == Lookup(s, t', id)
  {
    var s' := if t !in s then s[t := ImmutableMap.Empty()] else s;
    (s', s'[t])
  }

  /** `clear()`: every partition is dropped. */
  function Clear(s: Store): (r: Store)
    ensures r.Keys == {}
    ensures forall t, id :: Lookup(r, t, id) == None
  {
    map[]
  }

  /** Stores with the same partitions and the same answer to every lookup are
      the same store. */
  lemma {:induction false} Extensionality(a: Store, b: Store)
    requires a.Keys == b.Keys
    requires SameContents(a, b)
    ensures a == b
  {
    forall t | t in a
      ensures a[t] == b[t]
    {
      forall id
        ensures (id in a[t]) == (id in b[t])
        ensures id in a[t] ==> a[t][id] == b[t][id]
      {
        assert Lookup(a, t, id) == Lookup(b, t, id);
      }
    }
  }

  /** `new EntitiesByType(initial)`: for every partition of the source, a
      fresh partition filled entry by entry through `ImmutableMap.set`. The
      result has the same partitions, including empty ones, and the same
      entries as the source. */
  method Copy(s: Store) returns (r: Store)
    ensures r.Keys == s.Keys
    ensures forall t, id :: Lookup(r, t, id) == Lookup(s, t, id)
    ensures r == s
  {
    r := map[];
    var types := s.Keys;
    while types != {}
      invariant types <= s.Keys
      invariant r.Keys == s.Keys - types
      invariant forall t :: t in r ==> r[t] == s[t]
      decreases types
    {
      var t :| t in types;
      r := r[t := ImmutableMap.Empty()];
      var ids := s[t].Keys;
      while ids != {}
        invariant ids <= s[t].Keys
        invariant r.Keys == s.Keys - types + {t}
        invariant forall t' :: t' in r && t' != t ==> r[t'] == s[t']
        invariant r[t].Keys == s[t].Keys - ids
        invariant forall id :: id in r[t] ==> r[t][id] == s[t][id]
        decreases ids
      {
        var id :| id in ids;
        r := r[t := ImmutableMap.Set(r[t], id, s[t][id])];
        ids := ids - {id};
      }
      assert r[t] == s[t];
      types := types - {t};
    }
  }

}

=== FILE: entity.dfy ===
/** Entities as the store sees them. The application's entity classes are
    outside the store; all the store ever reads of an entity is its runtime
    type (`entity.constructor`), used as a partition key, and its `id`. */
module Entity {

  /** The runtime type of an entity: its constructor, compared by identity. */
  type Tag(==, !new)

  /** The value of an entity's `id` field; unique only within one Tag. */
  type Id(==, !new)

  /** Every other field of an entity. Entities are immutable values here, so
      the deep clone done on every read and write is the identity and the
      deep freeze done on every write has nothing left to forbid. */
  type Payload(==, !new)

  datatype Entity = Entity(tag: Tag, id: Id, fields: Payload)

}

=== FILE: entity_manager.dfy ===
/** `EntityManager`: a unit of work bound to one target. Writes go to its
    pending log only; every read recomputes its store as the pending log
    replayed over the target's current `allEntities`; `flush` hands the
    pending log to the target and then clears it. A manager is named by its
    index in the system's list of managers. */
module EntityManager {

  import opened Optional
  import opened Entity
  import opened EntitiesByType
  import opened Operations
  import opened OperationSet
  import opened Targets

  /** `m` names an entity manager of a well-formed system. */
  predicate IsManager(sys: System, m: nat) {
    Valid(sys) && m < |sys.managers|
  }

  /** The part of the system the manager does not own is as it was, and the
      manager keeps its target. */
  predicate OnlyPendingChanged(sys: System, r: System, m: nat)
    requires m < |sys.managers|
  {
    && r.root == sys.root
    && r.transactions == sys.transactions
    && |r.managers| == |sys.managers|
    && r.managers[m].target == sys.managers[m].target
    && forall k :: 0 <= k < |sys.managers| && k != m ==> r.managers[k] == sys.managers[k]
  }

  /** `allEntities`: the pending log replayed over the target's store as it is
      at this moment. */
  function View(sys: System, m: nat): (r: Store)
    requires IsManager(sys, m)
    ensures forall t, id ::
              Lookup(r, t, id) == LastWrite(sys.managers[m].pending, t, id, Lookup(AllEntities(sys, sys.managers[m].target), t, id))
  {
    var mgr := sys.managers[m];
    var base := AllEntities(sys, mgr.target);
    forall t, id ensures Lookup(Replay(mgr.pending, base), t, id) == LastWrite(mgr.pending, t, id, Lookup(base, t, id)) {
      ReplayLookup(mgr.pending, base, t, id);
    }
    Replay(mgr.pending, base)
  }

  /** `findOne(type, {id})`: the entity under (type, id) in the manager's
      store, or `None` (`null`) when there is none: the manager's own last
      pending operation on that key decides, and otherwise the target does. */
  function FindOne(sys: System, m: nat, t: Tag, id: Id): (r: Option<Entity>)
    requires IsManager(sys, m)
    ensures r == LastWrite(sys.managers[m].pending, t, id, Lookup(AllEntities(sys, sys.managers[m].target), t, id))
  {
    Lookup(View(sys, m), t, id)
  }

  /** `save(entity)`: record a `Save`. Only the manager's pending log changes,
      and the manager at once sees the entity. */
  function Save(sys: System, m: nat, e: Entity): (r: System)
    requires IsManager(sys, m)
    ensures IsManager(r, m) && OnlyPendingChanged(sys, r, m)
    ensures r.managers[m].pending == RecordSave(sys.managers[m].pending, e)
    ensures View(r, m) == ApplySave(e, View(sys, m))
    ensures FindOne(r, m, e.tag, e.id) == Some(e)
  {
    var mgr := sys.managers[m];
    sys.(managers := sys.managers[m := mgr.(pending := RecordSave(mgr.pending, e))])
  }

  /** The entity's key is present in the manager's store right now. */
  predicate Visible(sys: System, m: nat, e: Entity): (r: bool)
    requires IsManager(sys, m)
    ensures r <==> FindOne(sys, m, e.tag, e.id).Some?
  {
    ImmutableMap.Has(EntitiesByType.Get(View(sys, m), e.tag).1, e.id)
  }

  /** `delete(entity)`: record a `Delete`, but only when the entity's key is
      visible to the manager at the time of the call; otherwise nothing at
      all happens. */
  function Delete(sys: System, m: nat, e: Entity): (r: System)
    requires IsManager(sys, m)
    ensures IsManager(r, m) && OnlyPendingChanged(sys, r, m)
    ensures Visible(sys, m, e) ==> r.managers[m].pending == RecordDelete(sys.managers[m].pending, e)
    ensures Visible(sys, m, e) ==> View(r, m) == ApplyDelete(e, View(sys, m))
    ensures !Visible(sys, m, e) ==> r == sys
    ensures FindOne(r, m, e.tag, e.id) == None
  {
    var mgr := sys.managers[m];
    if Visible(sys, m, e) then
      sys.(managers := sys.managers[m := mgr.(pending := RecordDelete(mgr.pending, e))])
    else
      sys
  }

  /** `flush()`: persist the pending log to the target, then clear it. The
      target's store becomes the pending log replayed over it; for a
      transaction that means appending to its log, never touching the
      DataSource. The manager's own view does not change. */
  function Flush(sys: System, m: nat): (r: System)
    requires IsManager(sys, m)
    ensures IsManager(r, m)
    ensures r.managers[m] == Manager(sys.managers[m].target, [])
    ensures |r.managers| == |sys.managers|
    ensures forall k :: 0 <= k < |sys.managers| && k != m ==> r.managers[k] == sys.managers[k]
    ensures AllEntities(r, sys.managers[m].target)
      == Replay(sys.managers[m].pending, AllEntities(sys, sys.managers[m].target))
    ensures sys.managers[m].target.Root? ==>
      r.transactions == sys.transactions && r.root == Replay(sys.managers[m].pending, sys.root)
    ensures sys.managers[m].target.Txn? ==> r.root == sys.root
    ensures sys.managers[m].target.Txn? ==> var i := sys.managers[m].target.index;
      r.transactions == sys.transactions[i := Concat(sys.transactions[i], sys.managers[m].pending)]
    ensures View(r, m) == View(sys, m)
  {
    var mgr := sys.managers[m];
    var persisted := Persist(sys, mgr.target, mgr.pending);
    var r := persisted.(managers := persisted.managers[m := mgr.(pending := OperationSet.Clear())]);
    assert AllEntities(r, mgr.target) == AllEntities(persisted, mgr.target);
    assert mgr.target.Txn? ==> var i := mgr.target.index;
      persisted.transactions == sys.transactions[i := Concat(sys.transactions[i], mgr.pending)];
    r
  }

  /** A manager's unflushed saves are invisible to every other manager. */
  lemma SaveIsolated(sys: System, m: nat, k: nat, e: Entity)
    requires IsManager(sys, m) && IsManager(sys, k) && k != m
    ensures View(Save(sys, m, e), k) == View(sys, k)
  {
  }

  /** A delete of an entity the manager cannot see leaves no trace, not even
      after the next flush. */
  lemma InvisibleDeleteHasNoEffect(sys: System, m: nat, e: Entity)
    requires IsManager(sys, m)
    requires FindOne(sys, m, e.tag, e.id).None?
    ensures Delete(sys, m, e) == sys
    ensures Flush(Delete(sys, m, e), m) == Flush(sys, m)
  {
  }

  /** A flush by one manager is seen by every other manager on the same
      target without that manager flushing, underneath its own pending
      operations. */
  lemma FlushSeenBySiblings(sys: System, m: nat, k: nat)
    requires IsManager(sys, m) && IsManager(sys, k) && k != m
    requires sys.managers[k].target == sys.managers[m].target
    ensures View(Flush(sys, m), k)
      == Replay(sys.managers[k].pending,
                Replay(sys.managers[m].pending, AllEntities(sys, sys.managers[m].target)))
  {
  }

  /** Flushes to a transaction are invisible to managers bound to the
      DataSource or to another transaction. */
  lemma FlushInTransactionStaysInside(sys: System, m: nat, k: nat)
    requires IsManager(sys, m) && IsManager(sys, k)
    requires sys.managers[m].target.Txn? && sys.managers[k].target != sys.managers[m].target
    ensures View(Flush(sys, m), k) == View(sys, k)
  {
  }

  /** The store of a transaction is live: a flush to the DataSource by a
      manager outside the transaction shows through inside it at once. */
  lemma RootFlushSeenInTransaction(sys: System, m: nat, k: nat)
    requires IsManager(sys, m) && IsManager(sys, k)
    requires sys.managers[m].target.Root? && sys.managers[k].target.Txn?
    ensures View(Flush(sys, m), k)
      == Replay(sys.managers[k].pending,
                Replay(sys.transactions[sys.managers[k].target.index],
                       Replay(sys.managers[m].pending, sys.root)))
  {
  }

  /** When another transaction commits, a manager of this transaction sees
      the committed writes at once, under this transaction's log and its own
      pending operations. */
  lemma OtherCommitSeenInTransaction(sys: System, j: nat, k: nat)
    requires IsManager(sys, k) && j < |sys.transactions|
    requires sys.managers[k].target.Txn? && sys.managers[k].target.index != j
    ensures View(Commit(sys, j), k)
      == Replay(sys.managers[k].pending,
                Replay(sys.transactions[sys.managers[k].target.index],
                       Replay(sys.transactions[j], sys.root)))
  {
  }

}

=== FILE: immutable_map.dfy ===
/** `ImmutableMap<K, V>`: a key-to-value map that clones and freezes a value
    on `set` and clones it again on `get`. With immutable values both copies
    are the identity, so the map is a plain Dafny `map`, and every operation
    returns a new map instead of changing the receiver: the copy constructor
    and later changes to either copy can never affect the other. */
module ImmutableMap {

  import opened Optional

  /** `has(key)`: the key holds a value, that is, removing the key would
      change the map. */
  predicate Has<K(!new), V>(m: map<K, V>, k: K): (r: bool)
    ensures r <==> m - {k} != m
  {
    assert k in m ==> k !in m - {k};
    k in m
  }

  /** `get(key)`: the stored value, or `None` (`undefined`) for a missing key;
      a missing key is never an error. */
  function Get<K(!new), V>(m: map<K, V>, k: K): (r: Option<V>)
    ensures r.None? <==> !Has(m, k)
    ensures r.Some? ==> k in m && m[k] == r.value
  {
    if k in m then Some(m[k]) else None
  }

  /** `new ImmutableMap()` */
  function Empty<K(!new), V>(): (r: map<K, V>)
    ensures forall k :: !Has(r, k)
  {
    map[]
  }

  /** `new ImmutableMap(initialMap)`: a map with exactly the entries of the source. */
  function Copy<K(!new), V>(m: map<K, V>): (r: map<K, V>)
    ensures forall k :: Has(r, k) == Has(m, k)
    ensures forall k :: Get(r, k) == Get(m, k)
  {
    m
  }

  /** `set(key, value)`: store the value under the key, replacing any previous
      one; every other key keeps its presence and value. */
  function Set<K(!new), V>(m: map<K, V>, k: K, v: V): (r: map<K, V>)
    ensures Has(r, k) && Get(r, k) == Some(v)
    ensures forall k' :: k' != k ==> Has(r, k') == Has(m, k')
    ensures forall k' :: k' != k ==> Get(r, k') == Get(m, k')
  {
    m[k := v]
  }

  /** `delete(key)`: the map without the key, and whether the key was there. */
  function Delete<K(!new), V>(m: map<K, V>, k: K): (r: (map<K, V>, bool))
    ensures !Has(r.0, k)
    ensures r.1 <==> Has(m, k)
    ensures forall k' :: k' != k ==> Has(r.0, k') == Has(m, k')
    ensures forall k' :: k' != k ==> Get(r.0, k') == Get(m, k')
  {
    (m - {k}, k in m)
  }

  /** `clear()` */
  function Clear<K(!new), V>(m: map<K, V>): (r: map<K, V>)
    ensures forall k :: !Has(r, k)
  {
    map[]
  }

  /** Setting the same key to the same value twice is setting it once. */
  lemma SetIdempotent<K(!new), V>(m: map<K, V>, k: K, v: V)
    ensures Set(Set(m, k, v), k, v) == Set(m, k, v)
  {
  }

  /** A later `set` on a key overrides an earlier one on the same key. */
  lemma SetOverrides<K(!new), V>(m: map<K, V>, k: K, v: V, w: V)
    ensures Set(Set(m, k, v), k, w) == Set(m, k, w)
  {
  }

}

=== FILE: operation_set.dfy ===
/** `OperationSet`: the ordered log of recorded operations. Replaying a log
    onto a store is a left fold of `ApplyOp` over the log, starting from a
    copy of the store; the store passed in is never changed. */
module OperationSet {

  import opened Optional
  import opened Entity
  import opened EntitiesByType
  import opened Operations

  type OpLog = seq<Op>

  /** `new OperationSet()`, and what `clear()` leaves behind. */
  function Clear(): (r: OpLog)
    ensures |r| == 0
    ensures forall s :: Replay(r, s) == s
  {
    []
  }

  /** `save(entity)`: append a `Save`. */
  function RecordSave(log: OpLog, e: Entity): (r: OpLog)
    ensures |r| == |log| + 1 && r[..|log|] == log && r[|log|] == Save(e)
    ensures forall s :: Replay(r, s) == ApplySave(e, Replay(log, s))
  {
    ReplayAppend(log, Save(e));
    log + [Save(e)]
  }

  /** `delete(entity)`: append a `Delete`. */
  function RecordDelete(log: OpLog, e: Entity): (r: OpLog)
    ensures |r| == |log| + 1 && r[..|log|] == log && r[|log|] == Delete(e)
    ensures forall s :: Replay(r, s) == ApplyDelete(e, Replay(log, s))
  {
    ReplayAppend(log, Delete(e));
    log + [Delete(e)]
  }

  /** `concat(other)`: this log's operations followed by the other's, in
      order; neither input changes. */
  function Concat(a: OpLog, b: OpLog): (r: OpLog)
    ensures |r| == |a| + |b|
    ensures r[..|a|] == a && r[|a|..] == b
    ensures forall s :: Replay(r, s) == Replay(b, Replay(a, s))
  {
    ReplayConcatAll(a, b);
    a + b
  }

  /** The reference meaning of replay: apply the operations one after the
      other, first to last. */
  function Replay(ops: OpLog, s: Store): Store
    decreases |ops|
  {
    if |ops| == 0 then s else Replay(ops[1..], ApplyOp(ops[0], s))
  }

  /** Some operation of the log is about (t, id). */
  ghost predicate Touches(ops: OpLog, t: Tag, id: Id) {
    exists i :: 0 <= i < |ops| && OnKey(ops[i], t, id)
  }

  /** "Last operation wins", read from the back of the log: the effect of the
      last operation on (t, id), or `base` when no operation is about it. */
  function LastWrite(ops: OpLog, t: Tag, id: Id, base: Option<Entity>): Option<Entity>
    decreases |ops|
  {
    if |ops| == 0 then base
    else if OnKey(ops[|ops| - 1], t, id) then Effect(ops[|ops| - 1])
    else LastWrite(ops[..|ops| - 1], t, id, base)
  }

  /** The types the log mentions. */
  function TagsOf(ops: OpLog): set<Tag> {
    set i | 0 <= i < |ops| :: ops[i].entity.tag
  }

  /** Replaying `a + b` is replaying `b` over the replay of `a`. */
  lemma {:induction false} ReplayConcat(a: OpLog, b: OpLog, s: Store)
    ensures Replay(a + b, s) == Replay(b, Replay(a, s))
    decreases |a|
  {
    if |a| == 0 {
      assert a + b == b;
    } else {
      assert (a + b)[0] == a[0];
      assert (a + b)[1..] == a[1..] + b;
      ReplayConcat(a[1..], b, ApplyOp(a[0], s));
    }
  }

  lemma ReplayConcatAll(a: OpLog, b: OpLog)
    ensures forall s :: Replay(a + b, s) == Replay(b, Replay(a, s))
  {
    forall s {
      ReplayConcat(a, b, s);
    }
  }

  lemma ReplayAppend(log: OpLog, op: Op)
    ensures forall s :: Replay(log + [op], s) == ApplyOp(op, Replay(log, s))
  {
    forall s
      ensures Replay(log + [op], s) == ApplyOp(op, Replay(log, s))
    {
      ReplayConcat(log, [op], s);
      assert [op][1..] == [];
    }
  }

  /** Every lookup after a replay is decided by the last operation of the log
      on that key, or by the base store when the log never mentions it. */
  lemma {:induction false} ReplayLookup(ops: OpLog, s: Store, t: Tag, id: Id)
    ensures Lookup(Replay(ops, s), t, id) == LastWrite(ops, t, id, Lookup(s, t, id))
    decreases |ops|
  {
    if |ops| > 0 {
      var init, last := ops[..|ops| - 1], ops[|ops| - 1];
      assert ops == init + [last];
      ReplayAppend(init, last);
      ReplayLookup(init, s, t, id);
    }
  }

  /** A replay has the base store's partitions plus one for every type the
      log mentions. */
  lemma {:induction false} ReplayKeys(ops: OpLog, s: Store)
    ensures Replay(ops, s).Keys == s.Keys + TagsOf(ops)
    decreases |ops|
  {
    if |ops| == 0 {
      assert TagsOf(ops) == {};
    } else {
      ReplayKeys(ops[1..], ApplyOp(ops[0], s));
      assert TagsOf(ops) == {ops[0].entity.tag} + TagsOf(ops[1..]) by {
        forall x | x in TagsOf(ops)
          ensures x in {ops[0].entity.tag} + TagsOf(ops[1..])
        {
          var i :| 0 <= i < |ops| && ops[i].entity.tag == x;
          if i > 0 {
            assert ops[1..][i - 1] == ops[i];
          }
        }
        forall x | x in TagsOf(ops[1..])
          ensures x in TagsOf(ops)
        {
          var i :| 0 <= i < |ops[1..]| && ops[1..][i].entity.tag == x;
          assert ops[i + 1] == ops[1..][i];
        }
      }
    }
  }

  /** A key no operation mentions keeps its base value. */
  lemma {:induction false} LastWriteUntouched(ops: OpLog, t: Tag, id: Id, base: Option<Entity>)
    requires !Touches(ops, t, id)
    ensures LastWrite(ops, t, id, base) == base
    decreases |ops|
  {
    if |ops| > 0 {
      var init := ops[..|ops| - 1];
      assert !OnKey(ops[|ops| - 1], t, id);
      assert !Touches(init, t, id) by {
        forall i | 0 <= i < |init|
          ensures !OnKey(init[i], t, id)
        {
          assert init[i] == ops[i];
        }
      }
      LastWriteUntouched(init, t, id, base);
    }
  }

  /** When an operation of the log is about (t, id) the base value is
      irrelevant: the operation `i` with no later operation on the key decides. */
  lemma {:induction false} LastWriteAt(ops: OpLog, t: Tag, id: Id, base: Option<Entity>, i: nat)
    requires i < |ops| && OnKey(ops[i], t, id)
    requires forall j :: i < j < |ops| ==> !OnKey(ops[j], t, id)
    ensures LastWrite(ops, t, id, base) == Effect(ops[i])
    decreases |ops|
  {
    if i < |ops| - 1 {
      var init := ops[..|ops| - 1];
      assert !OnKey(ops[|ops| - 1], t, id);
      assert forall j :: i < j < |init| ==> init[j] == ops[j];
      LastWriteAt(init, t, id, base, i);
    }
  }

  /** Operations apply in recorded order: the last operation on a key decides
      its presence and value after the replay. */
  lemma LastOpWins(ops: OpLog, s: Store, i: nat)
    requires i < |ops|
    requires forall j :: i < j < |ops| ==> !OnKey(ops[j], ops[i].entity.tag, ops[i].entity.id)
    ensures Lookup(Replay(ops, s), ops[i].entity.tag, ops[i].entity.id) == Effect(ops[i])
  {
    var t, id := ops[i].entity.tag, ops[i].entity.id;
    ReplayLookup(ops, s, t, id);
    LastWriteAt(ops, t, id, Lookup(s, t, id), i);
  }

  /** Keys the log never mentions keep their value from the base store. */
  lemma ReplayUntouched(ops: OpLog, s: Store, t: Tag, id: Id)
    requires !Touches(ops, t, id)
    ensures Lookup(Replay(ops, s), t, id) == Lookup(s, t, id)
  {
    ReplayLookup(ops, s, t, id);
    LastWriteUntouched(ops, t, id, Lookup(s, t, id));
  }

  /** Feeding the outcome of the log back in as the base changes nothing. */
  lemma {:induction false} LastWriteStable(ops: OpLog, t: Tag, id: Id, base: Option<Entity>)
    ensures LastWrite(ops, t, id, LastWrite(ops, t, id, base)) == LastWrite(ops, t, id, base)
    decreases |ops|
  {
    if |ops| > 0 && !OnKey(ops[|ops| - 1], t, id) {
      LastWriteStable(ops[..|ops| - 1], t, id, base);
    }
  }

  /** Replaying a log over its own replay changes nothing. */
  lemma ReplayIdempotent(ops: OpLog, s: Store)
    ensures Replay(ops, Replay(ops, s)) == Replay(ops, s)
  {
    var once := Replay(ops, s);
    var twice := Replay(ops, once);
    forall t, id
      ensures Lookup(twice, t, id) == Lookup(once, t, id)
    {
      ReplayLookup(ops, once, t, id);
      ReplayLookup(ops, s, t, id);
      LastWriteStable(ops, t, id, Lookup(s, t, id));
    }
    ReplayKeys(ops, once);
    ReplayKeys(ops, s);
    EntitiesByType.Extensionality(twice, once);
  }

  /** `applyOn(entities)`: copy the store, then apply every operation to the
      copy in order. */
  method ApplyOn(ops: OpLog, s: Store) returns (r: Store)
    ensures forall t, id :: Lookup(r, t, id) == LastWrite(ops, t, id, Lookup(s, t, id))
    ensures r.Keys == s.Keys + TagsOf(ops)
    ensures r == Replay(ops, s)
  {
    r := EntitiesByType.Copy(s);
    var i := 0;
    while i < |ops|
      invariant 0 <= i <= |ops|
      invariant r == Replay(ops[..i], s)
    {
      ReplayAppend(ops[..i], ops[i]);
      assert ops[..i + 1] == ops[..i] + [ops[i]];
      r := ApplyOp(ops[i], r);
      i := i + 1;
    }
    assert ops[..i] == ops;
    forall t, id
      ensures Lookup(r, t, id) == LastWrite(ops, t, id, Lookup(s, t, id))
    {
      ReplayLookup(ops, s, t, id);
    }
    ReplayKeys(ops, s);
  }

}

=== FILE: operations.dfy ===
/** The two operations an entity manager records, `Save` and `Delete`, and
    what replaying one of them does to a store. Each is keyed by the entity's
    type and id only; the store passed in is the one the operation changes
    (here: returns changed). */
module Operations {

  import opened Optional
  import opened Entity
  import opened EntitiesByType
  import ImmutableMap

  datatype Op = Save(entity: Entity) | Delete(entity: Entity)

  /** The operation is about the entity stored under (t, id). */
  predicate OnKey(op: Op, t: Tag, id: Id) {
    op.entity.tag == t && op.entity.id == id
  }

  /** What a lookup of the operation's own key answers right after it. */
  function Effect(op: Op): Option<Entity> {
    if op.Save? then Some(op.entity) else None
  }

  /** `Save.applyOn`: upsert the entity under (its type, its id). */
  function ApplySave(e: Entity, s: Store): (r: Store)
    ensures Lookup(r, e.tag, e.id) == Some(e)
    ensures forall t, id :: (t != e.tag || id != e.id) ==> Lookup(r, t, id) == Lookup(s, t, id)
    ensures r.Keys == s.Keys + {e.tag}
    ensures forall t :: t in s && t != e.tag ==> r[t] == s[t]
  {
    var (s', p) := EntitiesByType.Get(s, e.tag);
    s'[e.tag := ImmutableMap.Set(p, e.id, e)]
  }

  /** `Delete.applyOn`: remove whatever is stored under (its type, its id).
      A missing key is not an error; when the type already has a partition
      the store comes back unchanged. */
  function ApplyDelete(e: Entity, s: Store): (r: Store)
    ensures Lookup(r, e.tag, e.id) == None
    ensures forall t, id :: (t != e.tag || id != e.id) ==> Lookup(r, t, id) == Lookup(s, t, id)
    ensures r.Keys == s.Keys + {e.tag}
    ensures forall t :: t in s && t != e.tag ==> r[t] == s[t]
    ensures e.tag in s && Lookup(s, e.tag, e.id) == None ==> r == s
  {
    var (s', p) := EntitiesByType.Get(s, e.tag);
    var p' := ImmutableMap.Delete(p, e.id).0;
    assert e.id !in p ==> p' == p;
    s'[e.tag := p']
  }

  /** `Operation.applyOn` */
  function ApplyOp(op: Op, s: Store): (r: Store)
    ensures Lookup(r, op.entity.tag, op.entity.id) == Effect(op)
    ensures forall t, id :: !OnKey(op, t, id) ==> Lookup(r, t, id) == Lookup(s, t, id)
    ensures r.Keys == s.Keys + {op.entity.tag}
  {
    match op
    case Save(e) => ApplySave(e, s)
    case Delete(e) => ApplyDelete(e, s)
  }

  /** Applying the same operation twice gives the store that applying it
      once gives. */
  lemma {:induction false} ApplyOpIdempotent(op: Op, s: Store)
    ensures ApplyOp(op, ApplyOp(op, s)) == ApplyOp(op, s)
  {
    var once := ApplyOp(op, s);
    var twice := ApplyOp(op, once);
    forall t, id
      ensures Lookup(twice, t, id) == Lookup(once, t, id)
    {
      if OnKey(op, t, id) {
        assert Lookup(twice, t, id) == Effect(op) == Lookup(once, t, id);
      }
    }
    EntitiesByType.Extensionality(twice, once);
  }

  /** Saves of entities with equal ids but different types never collide. */
  lemma SaveKeyIncludesType(a: Entity, b: Entity, s: Store)
    requires a.id == b.id && a.tag != b.tag
    ensures Lookup(ApplySave(b, ApplySave(a, s)), a.tag, a.id) == Some(a)
    ensures Lookup(ApplySave(b, ApplySave(a, s)), b.tag, b.id) == Some(b)
  {
  }

}

=== FILE: optional.dfy ===
/** The "maybe absent" result of a lookup. `None` stands for the `undefined`
    that a JavaScript `Map` returns for a missing key, and for the `null`
    that `findOne` turns it into. */
module Optional {

  datatype Option<+T> = None | Some(value: T)

}

=== FILE: scenarios.dfy ===
/** Whole-system runs that the repository's behavioural tests describe,
    stated for arbitrary entities and an arbitrary starting system. */
module Scenarios {

  import opened Optional
  import opened Entity
  import opened EntitiesByType
  import opened Operations
  import opened OperationSet
  import opened Targets
  import EntityManager
  import opened DataSource

  /** A callback that saves one entity through the manager it is given and
      flushes completes, and the commit leaves that entity in the
      DataSource; managers and transactions that already existed are
      untouched. */
  lemma SaveAndFlushCommits(sys: System, e: Entity)
    requires Valid(sys)
    ensures var m := |sys.managers|;
      var r := Begin(sys, [SaveWith(m, e), FlushWith(m)]);
      && r.Completed?
      && r.sys.root == ApplySave(e, sys.root)
      && |r.sys.managers| == |sys.managers| + 1
      && (forall k :: 0 <= k < |sys.managers| ==> r.sys.managers[k] == sys.managers[k])
      && |r.sys.transactions| == |sys.transactions| + 1
      && (forall j :: 0 <= j < |sys.transactions| ==> r.sys.transactions[j] == sys.transactions[j])
  {
    var m := |sys.managers|;
    var callback := [SaveWith(m, e), FlushWith(m)];
    var (s1, i, _) := OpenTransaction(sys);
    var s2 := Step(s1, SaveWith(m, e));
    var s3 := Step(s2, FlushWith(m));
    assert Run(s1, callback) == Completed(s3) by {
      assert callback[0].SaveWith? && callback[1..] == [FlushWith(m)];
      assert Run(s1, callback) == Run(s2, callback[1..]);
      assert callback[1..][0] == FlushWith(m) && callback[1..][1..] == [];
      assert Run(s2, callback[1..]) == Run(s3, []);
    }
    assert s2 == EntityManager.Save(s1, m, e) && s3 == EntityManager.Flush(s2, m);
    forall k | 0 <= k < |sys.managers|
      ensures s3.managers[k] == sys.managers[k]
    {
      assert s3.managers[k] == s2.managers[k] == s1.managers[k];
    }
    forall j | 0 <= j < |sys.transactions|
      ensures s3.transactions[j] == sys.transactions[j]
    {
      assert s3.transactions[j] == s2.transactions[j] == s1.transactions[j];
    }
    assert s3.transactions[i] == [Save(e)];
    ReplayAppend([], Save(e));
    assert [] + [Save(e)] == [Save(e)];
  }

  /** A nested transaction commits to the DataSource on its own: once it
      has completed, an outer callback that goes on working through its own
      transaction's manager and then throws leaves the DataSource exactly as
      the nested commit left it. */
  lemma NestedCommitOutlivesOuterFailure(s0: System, mo: nat, innerCallback: seq<Action>, rest: seq<Action>)
    requires EntityManager.IsManager(s0, mo) && s0.managers[mo].target.Txn?
    requires Begin(s0, innerCallback).Completed?
    requires OnlyThrough(rest, mo) && exists k :: 0 <= k < |rest| && rest[k].Throw?
    ensures Run(s0, [BeginTransaction(innerCallback)] + rest).Threw?
    ensures Run(s0, [BeginTransaction(innerCallback)] + rest).sys.root == Begin(s0, innerCallback).sys.root
  {
    RunAfterNestedCommit(s0, innerCallback, rest);
    var s4 := Begin(s0, innerCallback).sys;
    TransactionWorkKeepsRoot(s4, mo, rest);
  }

  /** A transaction begun inside another one's callback commits straight to
      the DataSource: its write lands there and survives the outer callback
      throwing afterwards, while the outer callback's own flushed write is
      dropped. */
  lemma InnerCommitSurvivesOuterFailure(sys: System, inner: Entity, outer: Entity)
    requires Valid(sys)
    requires inner.tag != outer.tag || inner.id != outer.id
    ensures var mo := |sys.managers|;
      var mi := mo + 1;
      var r := Begin(sys, [BeginTransaction([SaveWith(mi, inner), FlushWith(mi)]),
                           SaveWith(mo, outer), FlushWith(mo), Throw]);
      && r.Threw?
      && Lookup(r.sys.root, inner.tag, inner.id) == Some(inner)
      && Lookup(r.sys.root, outer.tag, outer.id) == Lookup(sys.root, outer.tag, outer.id)
  {
    var mo := |sys.managers|;
    var innerCallback := [SaveWith(mo + 1, inner), FlushWith(mo + 1)];
    var rest := [SaveWith(mo, outer), FlushWith(mo), Throw];
    var callback := [BeginTransaction(innerCallback)] + rest;
    assert callback == [BeginTransaction(innerCallback), SaveWith(mo, outer), FlushWith(mo), Throw];
    var s0 := OpenTransaction(sys).0;
    SaveAndFlushCommits(s0, inner);
    assert OnlyThrough(rest, mo) && rest[2].Throw?;
    NestedCommitOutlivesOuterFailure(s0, mo, innerCallback, rest);
  }

  /** A nested transaction whose callback throws commits nothing, and the
      exception aborts the outer callback before it commits either. */
  lemma InnerFailureAbortsBoth(sys: System, inner: Entity, outer: Entity)
    requires Valid(sys)
    ensures var mo := |sys.managers|;
      var mi := mo + 1;
      var r := Begin(sys, [BeginTransaction([SaveWith(mi, inner), FlushWith(mi), Throw]),
                           SaveWith(mo, outer), FlushWith(mo)]);
      r.Threw? && r.sys.root == sys.root
  {
    var mo := |sys.managers|;
    var mi := mo + 1;
    var innerCallback := [SaveWith(mi, inner), FlushWith(mi), Throw];
    var (s0, i, _) := OpenTransaction(sys);
    var (s1, j, _) := OpenTransaction(s0);
    assert OnlyThrough(innerCallback, mi);
    TransactionWorkKeepsRoot(s1, mi, innerCallback);
    var s2 := Step(s1, SaveWith(mi, inner));
    var s3 := Step(s2, FlushWith(mi));
    assert innerCallback[1..] == [FlushWith(mi), Throw] && innerCallback[1..][1..] == [Throw];
    assert Run(s1, innerCallback) == Run(s2, innerCallback[1..]);
    assert Run(s2, innerCallback[1..]) == Run(s3, [Throw]);
    assert Run(s1, innerCallback) == Threw(s3);
    assert Begin(s0, innerCallback) == Threw(s3);
  }

  /** While a nested transaction saves and flushes, the outer transaction's
      manager still sees what the DataSource held before; once the nested
      transaction commits, it sees the write at once. */
  lemma InnerCommitSeenByOuterManager(sys: System, e: Entity)
    requires Valid(sys)
    ensures var mo := |sys.managers|;
      var mi := mo + 1;
      var started := OpenTransaction(sys).0;
      var inner := OpenTransaction(started).0;
      var saved := Run(inner, [SaveWith(mi, e)]);
      var flushed := Run(inner, [SaveWith(mi, e), FlushWith(mi)]);
      var r := Run(started, [BeginTransaction([SaveWith(mi, e), FlushWith(mi)])]);
      && EntityManager.IsManager(saved.sys, mo)
      && EntityManager.FindOne(saved.sys, mo, e.tag, e.id) == Lookup(sys.root, e.tag, e.id)
      && EntityManager.IsManager(flushed.sys, mo)
      && EntityManager.FindOne(flushed.sys, mo, e.tag, e.id) == Lookup(sys.root, e.tag, e.id)
      && r.Completed?
      && EntityManager.IsManager(r.sys, mo)
      && EntityManager.FindOne(r.sys, mo, e.tag, e.id) == Some(e)
  {
    var mo := |sys.managers|;
    var mi := mo + 1;
    var innerCallback := [SaveWith(mi, e), FlushWith(mi)];
    var (s0, i, _) := OpenTransaction(sys);
    var (s1, j, _) := OpenTransaction(s0);
    var s2 := Step(s1, SaveWith(mi, e));
    var s3 := Step(s2, FlushWith(mi));
    assert Run(s1, innerCallback) == Completed(s3) by {
      assert innerCallback[0].SaveWith? && innerCallback[1..] == [FlushWith(mi)];
      assert Run(s1, innerCallback) == Run(s2, innerCallback[1..]);
      assert innerCallback[1..][0] == FlushWith(mi) && innerCallback[1..][1..] == [];
      assert Run(s2, innerCallback[1..]) == Run(s3, []);
    }
    assert Run(s1, [SaveWith(mi, e)]) == Completed(s2) by {
      assert [SaveWith(mi, e)][1..] == [];
    }
    assert s2.root == sys.root && s3.root == sys.root;
    assert s2.transactions[i] == [] && s3.transactions[i] == [];
    assert s2.managers[mo] == Manager(Txn(i), []) && s3.managers[mo] == Manager(Txn(i), []);
    var s4 := Commit(s3, j);
    assert Begin(s0, innerCallback) == Completed(s4);
    assert Run(s0, [BeginTransaction(innerCallback)]) == Completed(s4) by {
      assert [BeginTransaction(innerCallback)][1..] == [];
    }
    assert s4.transactions[j] == [Save(e)];
    assert s4.transactions[i] == [];
    assert s4.managers[mo] == Manager(Txn(i), []);
  }

  /** Two managers on the DataSource, with nothing stored under the
      entity's key: the first saves the entity, the second deletes it before
      the first has flushed. The delete is dropped because the second manager
      could not see the entity, so after both flush, both see it. */
  lemma DeleteOfUnseenEntityIsDropped(sys: System, m1: nat, m2: nat, e: Entity)
    requires EntityManager.IsManager(sys, m1) && EntityManager.IsManager(sys, m2) && m1 != m2
    requires sys.managers[m1] == Manager(Root, []) && sys.managers[m2] == Manager(Root, [])
    requires Lookup(sys.root, e.tag, e.id) == None
    ensures var s1 := EntityManager.Save(sys, m1, e);
      var s2 := EntityManager.Delete(s1, m2, e);
      var s4 := EntityManager.Flush(EntityManager.Flush(s2, m1), m2);
      && s2 == s1
      && EntityManager.FindOne(s4, m1, e.tag, e.id) == Some(e)
      && EntityManager.FindOne(s4, m2, e.tag, e.id) == Some(e)
  {
    var s1 := EntityManager.Save(sys, m1, e);
    assert EntityManager.FindOne(s1, m2, e.tag, e.id) == None;
    var s3 := EntityManager.Flush(s1, m1);
    assert s3.root == ApplySave(e, sys.root) by {
      assert s1.managers[m1].pending == [Save(e)];
      ReplayAppend([], Save(e));
      assert [] + [Save(e)] == [Save(e)];
    }
  }

  /** An entity in the DataSource deleted by one manager stays visible to
      another manager until the deleting manager flushes; then it is gone
      for both. */
  lemma DeleteVisibleToOthersUntilFlush(sys: System, m: nat, k: nat, e: Entity)
    requires EntityManager.IsManager(sys, m) && EntityManager.IsManager(sys, k) && m != k
    requires sys.managers[m] == Manager(Root, []) && sys.managers[k] == Manager(Root, [])
    requires Lookup(sys.root, e.tag, e.id) == Some(e)
    ensures var s1 := EntityManager.Delete(sys, m, e);
      var s2 := EntityManager.Flush(s1, m);
      && EntityManager.FindOne(s1, k, e.tag, e.id) == Some(e)
      && EntityManager.FindOne(s1, m, e.tag, e.id) == None
      && EntityManager.FindOne(s2, k, e.tag, e.id) == None
      && EntityManager.FindOne(s2, m, e.tag, e.id) == None
  {
    var s1 := EntityManager.Delete(sys, m, e);
    assert s1.managers[m].pending == [Delete(e)];
    assert EntityManager.Flush(s1, m).root == ApplyDelete(e, sys.root) by {
      ReplayAppend([], Delete(e));
      assert [] + [Delete(e)] == [Delete(e)];
    }
  }

}

=== FILE: targets.dfy ===
/** The persistence targets of one `DataSource` and the state they share.

    A `DataSource` owns the canonical store (`allEntities`). A `Transaction`
    only accumulates the logs persisted to it; its own store is computed on
    every access as its log replayed over the DataSource's current store, and
    `commit` persists its log to the DataSource. A transaction always wraps
    the DataSource directly, so "nesting" a transaction only creates another
    transaction over the same DataSource. */
module Targets {

  import opened Optional
  import opened Entity
  import opened EntitiesByType
  import opened OperationSet

  /** What an entity manager persists to: the DataSource, or the transaction
      with the given index. */
  datatype Target = Root | Txn(index: nat)

  /** An entity manager: the target it is bound to and its pending log. */
  datatype Manager = Manager(target: Target, pending: OpLog)

  /** One DataSource together with everything created from it: its store,
      the accumulated log of every transaction begun on it (a transaction is
      never discarded, and committing does not clear its log), and every
      entity manager bound to it or to one of its transactions. */
  datatype System = System(root: Store, transactions: seq<OpLog>, managers: seq<Manager>)

  /** The target exists: it refers to a transaction that has been begun. */
  predicate ValidTarget(sys: System, target: Target) {
    target.Txn? ==> target.index < |sys.transactions|
  }

  /** Every entity manager is bound to a target that exists. */
  predicate Valid(sys: System) {
    forall k :: 0 <= k < |sys.managers| ==> ValidTarget(sys, sys.managers[k].target)
  }

  /** `new DataSource()`: an empty store, nothing begun and nothing created. */
  function NewDataSource(): (r: System)
    ensures Valid(r)
    ensures r.transactions == [] && r.managers == []
    ensures forall t, id :: Lookup(r.root, t, id) == None
  {
    System(EntitiesByType.Empty(), [], [])
  }

  /** `allEntities` of a target: the DataSource's store as it is now, or for a
      transaction its accumulated log replayed over that store, so that root
      changes made while the transaction is open show through wherever the
      log does not touch them. */
  function AllEntities(sys: System, target: Target): (r: Store)
    requires ValidTarget(sys, target)
    ensures target.Root? ==> forall t, id :: Lookup(r, t, id) == Lookup(sys.root, t, id)
    ensures target.Txn? ==> forall t, id ::
      Lookup(r, t, id) == LastWrite(sys.transactions[target.index], t, id, Lookup(sys.root, t, id))
  {
    match target
    case Root => sys.root
    case Txn(i) =>
      forall t, id ensures Lookup(Replay(sys.transactions[i], sys.root), t, id)
                           == LastWrite(sys.transactions[i], t, id, Lookup(sys.root, t, id)) {
        ReplayLookup(sys.transactions[i], sys.root, t, id);
      }
      Replay(sys.transactions[i], sys.root)
  }

  /** `DataSource.persist(ops)`: the store becomes the log replayed onto it,
      at once. Nothing else changes. */
  function PersistRoot(sys: System, ops: OpLog): (r: System)
    ensures r.transactions == sys.transactions && r.managers == sys.managers
    ensures forall t, id :: Lookup(r.root, t, id) == LastWrite(ops, t, id, Lookup(sys.root, t, id))
    ensures Valid(sys) ==> Valid(r)
  {
    forall t, id ensures Lookup(Replay(ops, sys.root), t, id) == LastWrite(ops, t, id, Lookup(sys.root, t, id)) {
      ReplayLookup(ops, sys.root, t, id);
    }
    sys.(root := Replay(ops, sys.root))
  }

  /** `Transaction.persist(ops)`: the log is appended to the transaction's
      accumulated log; the DataSource's store is not touched. */
  function PersistTxn(sys: System, i: nat, ops: OpLog): (r: System)
    requires i < |sys.transactions|
    ensures r.root == sys.root && r.managers == sys.managers
    ensures |r.transactions| == |sys.transactions|
    ensures r.transactions[i] == Concat(sys.transactions[i], ops)
    ensures forall j :: 0 <= j < |sys.transactions| && j != i ==> r.transactions[j] == sys.transactions[j]
    ensures Valid(sys) ==> Valid(r)
    ensures AllEntities(r, Txn(i)) == Replay(ops, AllEntities(sys, Txn(i)))
  {
    var r := sys.(transactions := sys.transactions[i := Concat(sys.transactions[i], ops)]);
    assert r.transactions[i] == Concat(sys.transactions[i], ops);
    r
  }

  /** `persistenceTarget.persist(ops)`: whichever the target is, its
      `allEntities` becomes the log replayed over what it was. */
  function Persist(sys: System, target: Target, ops: OpLog): (r: System)
    requires ValidTarget(sys, target)
    ensures |r.transactions| == |sys.transactions| && r.managers == sys.managers
    ensures Valid(sys) ==> Valid(r)
    ensures AllEntities(r, target) == Replay(ops, AllEntities(sys, target))
    ensures target.Txn? ==> r.root == sys.root
  {
    match target
    case Root => PersistRoot(sys, ops)
    case Txn(i) => PersistTxn(sys, i, ops)
  }

  /** `Transaction.commit()`: the DataSource's store becomes what the
      transaction saw, its log replayed over the current store. The log is
      not cleared and the transaction is not marked finished, so nothing
      stops a second commit. */
  function Commit(sys: System, i: nat): (r: System)
    requires i < |sys.transactions|
    ensures r.transactions == sys.transactions && r.managers == sys.managers
    ensures Valid(sys) ==> Valid(r)
    ensures r.root == AllEntities(sys, Txn(i))
  {
    PersistRoot(sys, sys.transactions[i])
  }

  /** Writes that reached the DataSource while the transaction was open
      survive its commit unless its log touches the same (type, id). */
  lemma CommitKeepsUntouched(sys: System, i: nat, t: Tag, id: Id)
    requires i < |sys.transactions|
    requires !Touches(sys.transactions[i], t, id)
    ensures Lookup(Commit(sys, i).root, t, id) == Lookup(sys.root, t, id)
  {
    LastWriteUntouched(sys.transactions[i], t, id, Lookup(sys.root, t, id));
  }

  /** Persisting to a transaction and then committing it leaves the
      DataSource as committing first and then persisting to the DataSource
      would. */
  lemma CommitAfterPersist(sys: System, i: nat, ops: OpLog)
    requires i < |sys.transactions|
    ensures Commit(PersistTxn(sys, i, ops), i).root == PersistRoot(Commit(sys, i), ops).root
  {
  }

  /** Nothing guards against committing twice, but with nothing in between a
      second commit leaves the DataSource as the first one did. */
  lemma CommitTwiceIsCommitOnce(sys: System, i: nat)
    requires i < |sys.transactions|
    ensures Commit(Commit(sys, i), i) == Commit(sys, i)
  {
    ReplayIdempotent(sys.transactions[i], sys.root);
  }

  /** Persist each log of `logs` to transaction `i`, in order. */
  function PersistEach(sys: System, i: nat, logs: seq<OpLog>): (r: System)
    requires i < |sys.transactions|
    ensures r.root == sys.root && |r.transactions| == |sys.transactions|
    decreases |logs|
  {
    if |logs| == 0 then sys else PersistEach(PersistTxn(sys, i, logs[0]), i, logs[1..])
  }

  /** All the logs, one after the other. */
  function Flatten(logs: seq<OpLog>): OpLog
    decreases |logs|
  {
    if |logs| == 0 then [] else logs[0] + Flatten(logs[1..])
  }

  /** Committing a transaction that received several persisted logs gives
      the DataSource the store that one persist of all those operations, in
      order, would give it. */
  lemma {:induction false} CommitOfManyPersists(sys: System, i: nat, logs: seq<OpLog>)
    requires i < |sys.transactions|
    ensures Commit(PersistEach(sys, i, logs), i).root == Replay(Flatten(logs), Commit(sys, i).root)
    decreases |logs|
  {
    if |logs| > 0 {
      var sys' := PersistTxn(sys, i, logs[0]);
      CommitOfManyPersists(sys', i, logs[1..]);
      ReplayConcat(sys.transactions[i], logs[0], sys.root);
      ReplayConcat(logs[0], Flatten(logs[1..]), Commit(sys, i).root);
    }
  }

  /** The same for a transaction just begun: its commit equals persisting the
      concatenation of everything it received straight to the DataSource. */
  lemma CommitOfFreshTransaction(sys: System, i: nat, logs: seq<OpLog>)
    requires i < |sys.transactions| && sys.transactions[i] == []
    ensures Commit(PersistEach(sys, i, logs), i).root == PersistRoot(sys, Flatten(logs)).root
  {
    CommitOfManyPersists(sys, i, logs);
  }

}
